=== FILE: README.md ===
# gmod-hub-control core, modelled in Dafny

A Dafny model of the pure logic inside the game-server dashboard's React
components. The event handlers are lifted into pure functions over immutable
data. It has four parts.

- **Console panel** (`console.dfy`, module `Console`). It models the command
  input, the command history of at most 50 entries and the ArrowUp/ArrowDown
  history cursor. It also models the plain-text log export
  (`[timestamp] [LEVEL] message`, one line per entry, joined by newlines).
- **Dashboard page** (`dashboard.dfy`, module `Dashboard`). It models the list
  of server records and the four lifecycle updates: start request, start
  completion, stop request and stop completion. Each update applies to the
  record with a matching id. The updates the handlers delay with timers are
  explicit timed events (`Timed`), and restart is a stop followed by a start
  3000 ms later. The module also covers the per-server console logs (send
  command, clear) and the `onlineServers` and `totalPlayers` aggregates.
- **Server card** (`card.dfy`, module `Card`). It models which of Start, Stop
  and Restart each status offers and enables, and the status tone behind the
  text colour and badge classes. It also models the rule that uptime is shown
  only when online, and which dashboard events a click on an enabled button
  sets off.
- **File browser** (`files.dfy`, module `Files`). It models the
  case-insensitive search filter, the path segments and the Home, parent and
  child navigation targets. It also covers the new-folder form, the
  classification of files by extension and the `"-"` size label.

Shared pieces:

- `strings.dfy` (module `Strings`) models the JavaScript string operations the
  components use: `trim`, ASCII `toLowerCase`/`toUpperCase`, `includes`,
  `indexOf`, `replace` with a string pattern, `split` and `join`.
- `sequences.dfy` (module `Sequences`) holds `Array.prototype.filter`.
- `wrappers.dfy` (module `Wrappers`) holds `Option`.

The handlers are simpler than one might expect; the model follows the code:

- The dashboard's lifecycle handlers do not check the current status. Only the
  card's button enablement restricts which transitions a user can trigger.
  Completions apply whatever the status is by then.
- Restart is not gated on the stop completing. The start request fires 3000 ms
  after the stop request, and the stop completion lands at +2000 ms.
- Commands sent to an offline server are logged like any other.
- There is no failure or timeout path.

## Model

| member | source | states |
|---|---|---|
| Console.Submit | src/components/gaming/ConsolePanel.tsx:55-64 | a blank input changes nothing and sends nothing; otherwise the untrimmed input is sent once, becomes the newest history entry after the previous last 49, the history length becomes min(old+1, 50), the cursor is -1 and the input is empty; the cursor invariant is kept |
| Console.KeepLast | src/components/gaming/ConsolePanel.tsx:60 | for n > 0, `slice(-n)` keeps min(len, n) elements, and they are the suffix of the history |
| Console.FullHistoryEvicts | src/components/gaming/ConsolePanel.tsx:60 | submitting to a full history of 50 drops its oldest entry, so it can no longer be recalled |
| Console.SendButtonMatchesSubmit | src/components/gaming/ConsolePanel.tsx:215-218 | the send button is enabled exactly when a submit would send, that is, when the input is not blank |
| Console.Edit | src/components/gaming/ConsolePanel.tsx:206 | typing replaces the input and leaves the history and the cursor as they were |
| Console.Older | src/components/gaming/ConsolePanel.tsx:69-75 | ArrowUp below the oldest entry moves the cursor one step older and loads that entry; at the oldest entry, or with an empty history, nothing changes |
| Console.Newer | src/components/gaming/ConsolePanel.tsx:76-85 | ArrowDown above 0 moves one step newer and loads that entry; at 0 it goes to cursor -1 with an empty input; at -1 nothing changes |
| Console.KeyDown | src/components/gaming/ConsolePanel.tsx:66-87 | only Enter can send a command, and what it sends is the non-blank input; every key keeps the cursor invariant |
| Console.Run | src/components/gaming/ConsolePanel.tsx:42-87 | any sequence of key presses and edits keeps the cursor invariant, and every forwarded command is non-blank |
| Console.FreshRunValid | src/components/gaming/ConsolePanel.tsx:42-44 | the initial state (empty history, cursor -1, empty input) satisfies the invariant, and it still holds after any event sequence |
| Console.OlderSteps | src/components/gaming/ConsolePanel.tsx:69-75 | n ArrowUps leave the cursor at min(cursor+n, len-1), showing the entry it points at |
| Console.NewerSteps | src/components/gaming/ConsolePanel.tsx:76-85 | n ArrowDowns leave the cursor at max(cursor-n, -1), showing its entry or, past the newest, an empty input; they change nothing at -1 |
| Console.TypingKeepsCursor | src/components/gaming/ConsolePanel.tsx:69-85 | an edit never moves the cursor, and the next ArrowUp/ArrowDown behaves as if the edit had not happened whenever that key moves the cursor |
| Console.HistoryWalk | src/components/gaming/ConsolePanel.tsx:69-85 | from history [a,b,c] and cursor -1, ArrowUps show c, b, a and then stay at a; ArrowDowns then show b, c and an empty input, and then stay there |
| Console.LevelLabels | src/components/gaming/ConsolePanel.tsx:109 | the upper-cased level names are INFO, WARNING, ERROR, COMMAND |
| Console.FormatLineSingle | src/components/gaming/ConsolePanel.tsx:109 | an exported line holds a newline only if the timestamp or the message does |
| Console.ExportAppend | src/components/gaming/ConsolePanel.tsx:107-110 | no entries export as the empty text; one more entry adds a newline and its own formatted line |
| Console.FormatLine | src/components/gaming/ConsolePanel.tsx:109 | a line is `[`, the timestamp, `] [`, the level label, `] ` and the message: the timestamp sits right after the opening bracket and the message closes the line |
| Console.ExportText | src/components/gaming/ConsolePanel.tsx:107-110 | the export is empty exactly when there are no entries, and otherwise starts with the first entry's line |
| Console.ExportLines | src/components/gaming/ConsolePanel.tsx:107-110 | splitting the export at newlines gives exactly one `[ts] [LEVEL] msg` line per entry, in log order |
| Strings.Trim | src/components/gaming/ConsolePanel.tsx:56 | `trim` yields an infix of its input with only whitespace cut off on either side, neither starting nor ending in whitespace, and empty exactly when the input is blank |
| Strings.Lower | src/components/gaming/FileManager.tsx:61 | lower-casing keeps the length, leaves no ASCII capital and changes only ASCII capitals |
| Strings.Upper | src/components/gaming/ConsolePanel.tsx:109 | upper-casing keeps the length, leaves no ASCII small letter and changes only ASCII small letters |
| Strings.LowerIdempotent | src/components/gaming/FileManager.tsx:61 | lowering twice, or lowering after upper-casing, is the same as lowering once |
| Strings.IndexOf | src/components/gaming/FileManager.tsx:217 | the result is the first occurrence at or after the start index, clamped to the length as JavaScript does, or none when there is no occurrence |
| Strings.Contains | src/components/gaming/FileManager.tsx:61 | `includes` holds exactly when `indexOf` from 0 finds the pattern, and only for a pattern no longer than the string |
| Strings.EmptyPatternAtClampedStart | src/components/gaming/FileManager.tsx:217 | the empty pattern is found at the start index, or at the end when the start lies past it |
| Strings.ReplaceFirst | src/components/gaming/FileManager.tsx:217 | `replace` with a string pattern rewrites only the first occurrence and leaves a string without one unchanged |
| Strings.Split | src/components/gaming/FileManager.tsx:89 | `split` yields at least one piece, no piece contains the separator, and joining the pieces gives back the input |
| Strings.Join | src/components/gaming/FileManager.tsx:131 | a join holds the separator exactly when there are two or more pieces or a piece holds it |
| Strings.JoinStartsWithFirst | src/components/gaming/FileManager.tsx:131 | a join of one or more pieces begins with the first piece |
| Strings.SplitJoin | src/components/gaming/FileManager.tsx:131 | splitting a join of separator-free pieces gives the pieces back |
| Strings.SplitAtSep | src/components/gaming/FileManager.tsx:89 | splitting `a + sep + b` splits a and b independently |
| Strings.SplitWithoutSep | src/components/gaming/FileManager.tsx:76 | a string without the separator splits into itself alone |
| Strings.SplitLast | src/components/gaming/FileManager.tsx:76 | the last piece is the whole string when it has no separator, and otherwise the text after the last separator |
| Strings.JoinSnoc | src/components/gaming/ConsolePanel.tsx:110 | joining one more piece appends the separator and that piece |
| Sequences.Filter | src/pages/Index.tsx:141 | `filter` keeps only accepted elements, keeps every accepted element, and is as long as the input exactly when every element is accepted |
| Sequences.FilterAppend | src/components/gaming/FileManager.tsx:60-62 | filtering distributes over concatenation, so relative order is preserved |
| Dashboard.Apply | src/pages/Index.tsx:99-120 | an update changes only status, uptime and players; it sets the status its handler names, a start completion writes "0h 1m", a stop completion writes "0h 0m" and 0 players, and nothing else touches players |
| Dashboard.UpdateWhere | src/pages/Index.tsx:99-101 | the `map` keeps the list length; a record with the given id gets the update and every other record is untouched |
| Dashboard.UpdateKeepsList | src/pages/Index.tsx:98-120 | no lifecycle update changes the ids or their order, and an update for an absent id leaves the list unchanged |
| Dashboard.StartRequestFrame | src/pages/Index.tsx:98-101 | a start request sets only the matching record's status to starting |
| Dashboard.StartCompletionFrame | src/pages/Index.tsx:104-108 | a start completion sets the matching record online with uptime "0h 1m", whatever its status; players and every other field are kept |
| Dashboard.StopRequestFrame | src/pages/Index.tsx:111-114 | a stop request sets only the matching record's status to stopping |
| Dashboard.StopCompletionFrame | src/pages/Index.tsx:116-120 | a stop completion sets the matching record offline with uptime "0h 0m" and 0 players, whatever the prior values |
| Dashboard.CompletionSubsumesRequest | src/pages/Index.tsx:98-120 | a request followed by its completion equals the completion alone |
| Dashboard.StartEvents | src/pages/Index.tsx:98-109 | start fires, in time order, a start request at t and the start completion at t+3000, both for that id |
| Dashboard.StopEvents | src/pages/Index.tsx:111-121 | stop fires, in time order, a stop request at t and the stop completion at t+2000, both for that id |
| Dashboard.RestartEvents | src/pages/Index.tsx:123-126 | restart fires, in time order, a stop request at t, the stop completion at t+2000, a start request at t+3000 and the start completion at t+6000 |
| Dashboard.Run | src/pages/Index.tsx:99-120 | replaying fired timers in order never adds, removes, reorders or re-identifies a server, and changes no field but status, uptime and players |
| Dashboard.RunAppend | src/pages/Index.tsx:123-126 | replaying two batches of timers in turn is replaying them together |
| Dashboard.StartOutcome | src/pages/Index.tsx:98-109 | once both of a start's timers have fired, the list is what the completion alone gives: that server online with uptime "0h 1m" |
| Dashboard.StopOutcome | src/pages/Index.tsx:111-121 | once both of a stop's timers have fired, the list is what the completion alone gives: that server offline with 0 players and uptime "0h 0m" |
| Dashboard.RestartOutcome | src/pages/Index.tsx:104-126 | with no interleaved events, restart leaves the server online with 0 players and uptime "0h 1m", its other fields kept, and every other server untouched |
| Dashboard.LogOf | src/pages/Index.tsx:137 | the log shown for a server (the stored one, else the empty list) is empty exactly when no log or an empty log is stored, and otherwise is the stored log |
| Dashboard.SendCommand | src/pages/Index.tsx:128-138 | sending appends exactly one `command` entry with message "> " + command to that server's log, creating it if absent, and no other log changes |
| Dashboard.ClearLogs | src/pages/Index.tsx:195 | clearing empties the given server's log and touches no other |
| Dashboard.SubmitEchoes | src/pages/Index.tsx:128-138 | a command submitted from the console is logged once, as "> " followed by the untrimmed input |
| Dashboard.OnlineServers | src/pages/Index.tsx:141 | the online count is at most the number of servers; it is 0 exactly when none is online and equals the list length exactly when all are |
| Dashboard.TotalPlayers | src/pages/Index.tsx:142 | the player total is non-negative when every count is, and 0 when every count is 0 |
| Dashboard.PlayersAfterUpdate | src/pages/Index.tsx:98-142 | only a stop completion changes the player total, by subtracting exactly the players of the servers it stops |
| Dashboard.OnlineAfterUpdate | src/pages/Index.tsx:98-141 | a start completion never lowers the online count, and no other update raises it |
| Dashboard.StartCompletionOnline | src/pages/Index.tsx:104-108 | after a start completion for a listed id, at least one server is online |
| Card.Offered | src/components/gaming/ServerCard.tsx:133-162 | Restart is always rendered; the one Start/Stop slot shows Start exactly when offline and Stop otherwise |
| Card.Disabled | src/components/gaming/ServerCard.tsx:147-158 | only a rendered button is ever disabled, and Start never is |
| Card.Enabled | src/components/gaming/ServerCard.tsx:133-158 | a clickable button is rendered, and Start is clickable iff offline, Stop iff online or starting, Restart iff online or stopping |
| Card.EnablementTable | src/components/gaming/ServerCard.tsx:133-158 | Start is offered iff offline, and Stop is offered otherwise, never both; Stop is disabled iff stopping; Restart is disabled iff offline or starting, so it is enabled for online and stopping |
| Card.SomeActionEnabled | src/components/gaming/ServerCard.tsx:133-158 | each of the four statuses has at least one enabled lifecycle button |
| Card.StatusColor | src/components/gaming/ServerCard.tsx:49-57 | getStatusColor gives "text-" followed by the status's tone name: online, offline, or loading for both transitional statuses |
| Card.StatusBadge | src/components/gaming/ServerCard.tsx:59-67 | getStatusBadge gives "bg-" followed by the same suffix getStatusColor puts after "text-", so badge and colour always name one tone |
| Card.ToneClassification | src/components/gaming/ServerCard.tsx:49-67 | colour and badge classes follow one tone; starting and stopping share the loading tone, and online and offline each have their own |
| Card.UptimeVisible | src/components/gaming/ServerCard.tsx:191 | the uptime line shows exactly for the online tone, and then Stop and Restart are clickable and Start is absent |
| Card.UptimeShownWhenOnline | src/components/gaming/ServerCard.tsx:191-195 | uptime is shown exactly for an online server, whose card offers Stop and Restart but not Start |
| Card.Click | src/components/gaming/ServerCard.tsx:133-158 | a click on a disabled or absent button sets off nothing; an enabled one sets off at least a request now and a later completion, all for that server |
| Card.ClickOutcome | src/components/gaming/ServerCard.tsx:133-158 | once an enabled click's timers have fired with nothing in between, Start leaves the start completion's result, Stop the stop completion's, and Restart the stop completion's followed by the start completion's |
| Card.ClickTransitions | src/components/gaming/ServerCard.tsx:133-158 | a click moves an offline server to starting and any other server to stopping; a click issues a start request at once only to an offline server |
| Files.FilteredFiles | src/components/gaming/FileManager.tsx:60-62 | the result holds only listed files whose lower-cased name contains the lower-cased term, and every such file |
| Files.EmptySearchKeepsAll | src/components/gaming/FileManager.tsx:60-62 | an empty term keeps every file, in order |
| Files.SearchIgnoresTermCase | src/components/gaming/FileManager.tsx:60-62 | lower-casing or upper-casing the term does not change the result |
| Files.SearchKeepsOrder | src/components/gaming/FileManager.tsx:60-62 | the survivors keep their relative order |
| Files.PathParts | src/components/gaming/FileManager.tsx:89 | the path parts are non-empty and contain no "/" |
| Files.RootHasNoParts | src/components/gaming/FileManager.tsx:89 | "/" and "" have no parts |
| Files.PartsAtSlash | src/components/gaming/FileManager.tsx:89 | the parts of `a + "/" + b` are those of a followed by those of b, so repeated slashes add nothing |
| Files.PartsOfJoin | src/components/gaming/FileManager.tsx:89 | the parts of non-empty, slash-free segments joined by "/" are those segments |
| Files.PartsExample | src/components/gaming/FileManager.tsx:89 | the parts of "/a/b" are "a" and "b" |
| Files.HomeTarget | src/components/gaming/FileManager.tsx:124 | Home leads to the root from any path: no parts and a disabled parent button |
| Files.ParentTarget | src/components/gaming/FileManager.tsx:131-132 | the parent button is disabled iff there are no parts; its target is "/" or has no leading slash |
| Files.ParentDropsLast | src/components/gaming/FileManager.tsx:131 | the parent target's parts are the current parts without the last |
| Files.ParentExample | src/components/gaming/FileManager.tsx:131 | the parent of "/a/b" is "a" |
| Files.ParentOfTopLevel | src/components/gaming/FileManager.tsx:131-132 | the parent of "/a" is "/", and "/" has no parent |
| Files.ChildTarget | src/components/gaming/FileManager.tsx:215-218 | only a folder click navigates |
| Files.CollapseAt | src/components/gaming/FileManager.tsx:217 | turning "//" into "/" keeps the path's parts |
| Files.CollapseKeepsParts | src/components/gaming/FileManager.tsx:217 | replacing the first "//" by "/" keeps the path's parts |
| Files.ChildAppendsName | src/components/gaming/FileManager.tsx:215-218 | opening a folder with a non-empty, slash-free name appends exactly that name to the parts |
| Files.ParentOfChild | src/components/gaming/FileManager.tsx:131-218 | going up from a folder just opened returns to the original parts |
| Files.ChildExamples | src/components/gaming/FileManager.tsx:217 | "/" plus "addons" gives "/addons"; "/cfg" plus "maps" gives "/cfg/maps" |
| Files.CreateFolder | src/components/gaming/FileManager.tsx:98-104 | a blank name changes nothing and creates nothing; otherwise the trimmed name (non-empty, no surrounding whitespace) is passed on, the input is cleared and the form hidden |
| Files.LastDotPart | src/components/gaming/FileManager.tsx:76 | the part after the last "." has no dot; it is the whole name when there is no dot, and otherwise the name is a prefix, ".", and this part |
| Files.Extension | src/components/gaming/FileManager.tsx:76 | the extension has no dot and is as long as the last dotted part |
| Files.LowerKeepsDots | src/components/gaming/FileManager.tsx:76 | lower-casing a name commutes with taking its last dotted part |
| Files.FileIcon | src/components/gaming/FileManager.tsx:71-87 | the folder icon is given to exactly the folders; IconTable fixes the file icons |
| Files.IconTable | src/components/gaming/FileManager.tsx:71-87 | folders get the folder icon; files get warning iff the extension is cfg, txt or log, primary iff it is lua, and plain otherwise |
| Files.IconIgnoresCase | src/components/gaming/FileManager.tsx:76 | lower-casing a name does not change its icon |
| Files.ExtensionAfterLastDot | src/components/gaming/FileManager.tsx:76 | `stem.ext` with a dot-free ext has extension lower(ext), whatever the stem |
| Files.IconByExtension | src/components/gaming/FileManager.tsx:71-87 | a file `stem.ext` is classified by lower(ext) alone |
| Files.DotlessName | src/components/gaming/FileManager.tsx:76-81 | a dot-free name is its own extension, so a file named "log" gets the warning icon |
| Files.ExtensionBadge | src/components/gaming/FileManager.tsx:225 | the badge has no dot and lower-cases to the extension |
| Files.FormatFileSize | src/components/gaming/FileManager.tsx:64-65 | the label is "-" exactly when the size is absent or 0 |

## Left out

- Rendering, JSX, icons as components, CSS class strings other than the status classes, layout, and the minimised or maximised console view. These are presentation only.
- src/components/gaming/GamePanelHeader.tsx is not part of this model. It displays the numbers it is given, a role-to-colour lookup and the user's initial, all presentation.
- Numeric fields (`players`, `maxPlayers`, `port`, `cpu`, `ram`, `maxRam`, a file's `size`) are JavaScript doubles in the code and unbounded integers here. Fractional values, NaN, the 2^53 precision limit and double rounding in the `reduce` sum of players are not modelled, and neither is `!bytes` being true for NaN.
- Timers and React state batching. Delayed completions are explicit `Timed` events applied in the order listed. Interleavings with other handlers' events are not enumerated.
- The console history, cursor and input belong to the mounted panel, not to a server: the page renders one panel without a `key`, so switching the active console straight to another server keeps them, and closing it (which unmounts the panel) discards them. The model has one console session and does not model switching or closing.
- Browser side effects are not modelled: the Blob/URL download and file name in `exportLogs`, auto-scroll, the hidden upload input and its click, and `window.location.reload`.
- Timestamps from `new Date().toISOString()` are opaque strings passed in as parameters.
- Files.FormatFileSize: the non-"-" branch (`Math.log`, `Math.pow`, `toFixed`) is floating point and is represented only by the size it would format.
- The memory percentage in the server card is floating point and is left out.
- Strings.ReplaceFirst: inserts the replacement literally; JavaScript's `$&`, `$$`, `` $` `` and `$'` substitution patterns are not expanded. The only call passes "/", which has none.
- Strings.Lower: covers ASCII letters only. So do Strings.Upper and the search, extension and level labels built on them. JavaScript's full Unicode case mapping is not modelled.
- Mock data and the empty callbacks of the page (`onNavigate`, `onUpload`, `onDownload`, `onDelete`, `onEdit`, `onCreateFolder`, `onOpenConfig`) are left out. The navigation targets and the created folder name are modelled as the values handed to those callbacks.
- The default branches of `getStatusColor` and `getStatusBadge` cannot be reached, because status is a closed enumeration.
- `getLevelColor` and `getLevelBadge` (console level colours, including the `default` branch every info entry takes) are presentation and are not modelled.
- Supervisor failures, timeouts, at-most-one-pending-transition, restart gated on stop completion, and rejection of commands to offline servers are left out. The code has none of these behaviours.

=== FILE: card.dfy ===
/** A server card's action buttons, status colours and uptime line
    (src/components/gaming/ServerCard.tsx), and what a click on an enabled
    button sets off on the dashboard. */
module Card {
  import opened Dashboard

  datatype Action = Start | Stop | Restart

  /** Whether the card renders the button: Start only for an offline
      server, Stop in its place otherwise, Restart always. */
  predicate Offered(st: Status, a: Action)
    ensures a == Restart ==> Offered(st, a)
    ensures a != Restart ==> (Offered(st, a) <==> (a == Start <==> st == Offline))
  {
    match a
    case Start => st == Offline
    case Stop => st != Offline
    case Restart => true
  }

  /** The `disabled` attribute of a rendered button. */
  predicate Disabled(st: Status, a: Action)
    ensures Disabled(st, a) ==> Offered(st, a)
    ensures a == Start ==> !Disabled(st, a)
  {
    match a
    case Start => false
    case Stop => st == Stopping
    case Restart => st == Offline || st == Starting
  }

  /** The button is on the card and can be clicked. */
  predicate Enabled(st: Status, a: Action)
    ensures Enabled(st, a) ==> Offered(st, a)
    ensures Enabled(st, a) <==> match a
      case Start => st == Offline
      case Stop => st == Online || st == Starting
      case Restart => st == Online || st == Stopping
  {
    Offered(st, a) && !Disabled(st, a)
  }

  /** The full enablement table: Start only when offline, Stop when online
      or starting, Restart when online or stopping. */
  lemma EnablementTable(st: Status)
    ensures Enabled(st, Start) <==> st == Offline
    ensures Enabled(st, Stop) <==> st == Online || st == Starting
    ensures Enabled(st, Restart) <==> st == Online || st == Stopping
    ensures Offered(st, Start) != Offered(st, Stop)
    ensures Offered(st, Stop) ==> (Disabled(st, Stop) <==> st == Stopping)
    ensures Disabled(st, Restart) <==> st == Offline || st == Starting
  {
  }

  /** No status leaves the card without an enabled lifecycle button. */
  lemma SomeActionEnabled(st: Status)
    ensures exists a: Action :: Enabled(st, a)
  {
    match st
    case Offline => assert Enabled(st, Start);
    case Online => assert Enabled(st, Stop);
    case Starting => assert Enabled(st, Stop);
    case Stopping => assert Enabled(st, Restart);
  }

  /** The status classification both the text colour and the badge use. */
  datatype Tone = OnlineTone | OfflineTone | LoadingTone

  function ToneOf(st: Status): Tone {
    match st
    case Online => OnlineTone
    case Offline => OfflineTone
    case Starting => LoadingTone
    case Stopping => LoadingTone
  }

  function ToneName(t: Tone): string {
    match t
    case OnlineTone => "online"
    case OfflineTone => "offline"
    case LoadingTone => "loading"
  }

  /** getStatusColor. */
  function StatusColor(st: Status): (r: string)
    ensures r == "text-" + ToneName(ToneOf(st))
  {
    match st
    case Online => "text-online"
    case Offline => "text-offline"
    case Starting => "text-loading"
    case Stopping => "text-loading"
  }

  /** getStatusBadge. */
  function StatusBadge(st: Status): (r: string)
    ensures |r| > 3 && r[..3] == "bg-"
    ensures StatusColor(st) == "text-" + r[3..]
  {
    match st
    case Online => "bg-online"
    case Offline => "bg-offline"
    case Starting => "bg-loading"
    case Stopping => "bg-loading"
  }

  /** Colour and badge agree on one classification: the two transitional
      statuses share the loading tone, and online and offline each have a
      tone of their own. */
  lemma ToneClassification(st: Status, other: Status)
    ensures StatusColor(st) == "text-" + ToneName(ToneOf(st))
    ensures StatusBadge(st) == "bg-" + ToneName(ToneOf(st))
    ensures StatusColor(st) == StatusColor(other) <==> ToneOf(st) == ToneOf(other)
    ensures StatusBadge(st) == StatusBadge(other) <==> ToneOf(st) == ToneOf(other)
    ensures ToneOf(st) == LoadingTone <==> st == Starting || st == Stopping
  {
  }

  /** The uptime line is rendered only for an online server. */
  predicate UptimeVisible(st: Status)
    ensures UptimeVisible(st) <==> ToneOf(st) == OnlineTone
    ensures UptimeVisible(st) ==> !Offered(st, Start) && Enabled(st, Stop) && Enabled(st, Restart)
  {
    st == Online
  }

  /** Uptime shows exactly for an online server, which is also exactly
      when the card has the online tone; such a card offers Stop and
      Restart, never Start. */
  lemma UptimeShownWhenOnline(st: Status)
    ensures UptimeVisible(st) <==> st == Online
    ensures UptimeVisible(st) <==> ToneOf(st) == OnlineTone
    ensures UptimeVisible(st) ==> !Offered(st, Start) && Enabled(st, Stop) && Enabled(st, Restart)
  {
  }

  /** The dashboard events a click sets off at time `t`: the handler's
      events when the button is enabled, nothing otherwise. */
  function Click(s: Server, a: Action, t: int): (events: seq<Timed>)
    ensures !Enabled(s.status, a) ==> events == []
    ensures Enabled(s.status, a) ==> |events| >= 2 && events[0].at == t
    ensures forall k :: 0 <= k < |events| ==> events[k].id == s.id
  {
    if !Enabled(s.status, a) then []
    else
      match a
      case Start => StartEvents(s.id, t)
      case Stop => StopEvents(s.id, t)
      case Restart => RestartEvents(s.id, t)
  }

  /** The transitions a click can set off at once: an offline server
      starts, an online or starting server stops, and a restart from online
      or stopping begins with a stop. A click never issues a start request
      at once to a server that is not offline. */
  lemma ClickTransitions(s: Server, a: Action, t: int)
    requires Enabled(s.status, a)
    ensures var first := Apply(Click(s, a, t)[0].update, s);
      && (s.status == Offline <==> first.status == Starting)
      && (s.status != Offline <==> first.status == Stopping)
    ensures Click(s, a, t)[0].update == StartRequested <==> s.status == Offline
  {
  }

  /** Where an enabled click ends once all its timers have fired, with no
      other events in between: a start leaves the start completion's
      result, a stop the stop completion's, and a restart the stop
      completion's followed by the start completion's. */
  lemma ClickOutcome(servers: seq<Server>, s: Server, a: Action, t: int)
    requires Enabled(s.status, a)
    ensures a == Start ==> Run(servers, Click(s, a, t)) == UpdateWhere(servers, s.id, StartCompleted)
    ensures a == Stop ==> Run(servers, Click(s, a, t)) == UpdateWhere(servers, s.id, StopCompleted)
    ensures a == Restart ==>
      Run(servers, Click(s, a, t))
        == UpdateWhere(UpdateWhere(servers, s.id, StopCompleted), s.id, StartCompleted)
  {
    match a
    case Start => StartOutcome(servers, s.id, t);
    case Stop => StopOutcome(servers, s.id, t);
    case Restart =>
      RunAppend(servers, StopEvents(s.id, t), StartEvents(s.id, t + RestartDelay));
      StopOutcome(servers, s.id, t);
      StartOutcome(UpdateWhere(servers, s.id, StopCompleted), s.id, t + RestartDelay);
  }
}

=== FILE: console.dfy ===
/** The console panel: the command input, the bounded
    command history with its navigation cursor, and the plain-text log
    export (src/components/gaming/ConsolePanel.tsx). */
module Console {
  import opened Wrappers
  import opened Sequences
  import opened Strings

  /** The history keeps the most recent 50 submitted commands. */
  const HistoryLimit: nat := 50

  datatype Level = Info | Warning | Error | Command

  datatype LogEntry = LogEntry(timestamp: string, level: Level, message: string)

  /** The panel's local state: submitted commands (oldest first), the
      history cursor (-1 while editing a fresh command, k >= 0 while showing
      the k-th most recent entry) and the text in the input box. */
  datatype Session = Session(history: seq<string>, cursor: int, input: string)

  /** The state the panel keeps: the cursor is -1 or names an entry, and the
      history never exceeds its bound. */
  predicate Valid(s: Session) {
    && -1 <= s.cursor <= |s.history| - 1
    && |s.history| <= HistoryLimit
  }

  /** A freshly mounted panel. */
  const Fresh := Session([], -1, "")

  /** The history entry the cursor points at, counting back from the most
      recent one. */
  function Recalled(s: Session): string
    requires Valid(s) && s.cursor >= 0
  {
    s.history[|s.history| - 1 - s.cursor]
  }

  /** The last `n` elements of `h` (JavaScript's `h.slice(-n)` for n > 0). */
  function KeepLast(h: seq<string>, n: nat): (r: seq<string>)
    ensures |r| == Min(|h|, n)
    ensures r == h[|h| - |r|..]
  {
    if |h| <= n then h else h[|h| - n..]
  }

  /** Keeping the last n - 1 and appending keeps the last n of the
      extended history. */
  lemma KeepLastThenAppend(h: seq<string>, x: string, n: nat)
    requires n >= 1
    ensures var r := KeepLast(h, n - 1) + [x];
      |r| == Min(|h| + 1, n) && r == (h + [x])[|h| + 1 - |r|..]
  {
    var r := KeepLast(h, n - 1) + [x];
    assert (h + [x])[|h| + 1 - |r|..] == h[|h| + 1 - |r|..] + [x];
  }

  /** What a key press or a click produced: the new state and the command
      forwarded to the server, if any. */
  datatype Outcome = Outcome(session: Session, sent: Option<string>)

  /** Submitting the input (Enter or the send button). A blank command is
      ignored; any other is forwarded untrimmed, appended to the history
      (dropping the oldest entry when the history is full), and the input
      and cursor are reset. */
  function Submit(s: Session): (o: Outcome)
    requires Valid(s)
    ensures Valid(o.session)
    ensures Blank(s.input) ==> o == Outcome(s, None)
    ensures !Blank(s.input) ==>
      && o.sent == Some(s.input)
      && o.session.cursor == -1
      && o.session.input == ""
      && |o.session.history| == Min(|s.history| + 1, HistoryLimit)
      && o.session.history == (s.history + [s.input])[|s.history| + 1 - |o.session.history|..]
  {
    if Trim(s.input) != "" then
      var h := KeepLast(s.history, HistoryLimit - 1) + [s.input];
      KeepLastThenAppend(s.history, s.input, HistoryLimit);
      Outcome(Session(h, -1, ""), Some(s.input))
    else
      Outcome(s, None)
  }

  /** Typing in the input box replaces the text and nothing else. */
  function Edit(s: Session, text: string): (r: Session)
    requires Valid(s)
    ensures Valid(r)
    ensures r.input == text && r.history == s.history && r.cursor == s.cursor
  {
    s.(input := text)
  }

  /** ArrowUp: step to the next older entry and load it, unless the oldest
      entry is already shown (or the history is empty). */
  function Older(s: Session): (r: Session)
    requires Valid(s)
    ensures Valid(r) && r.history == s.history
    ensures s.cursor < |s.history| - 1 ==>
      r.cursor == s.cursor + 1 && r.input == Recalled(r)
    ensures s.cursor == |s.history| - 1 ==> r == s
  {
    if |s.history| > 0 && s.cursor < |s.history| - 1 then
      var k := s.cursor + 1;
      Session(s.history, k, s.history[|s.history| - 1 - k])
    else s
  }

  /** ArrowDown: step to the next newer entry and load it; from the most
      recent entry, return to an empty input; while editing, do nothing. */
  function Newer(s: Session): (r: Session)
    requires Valid(s)
    ensures Valid(r) && r.history == s.history
    ensures s.cursor > 0 ==> r.cursor == s.cursor - 1 && r.input == Recalled(r)
    ensures s.cursor == 0 ==> r.cursor == -1 && r.input == ""
    ensures s.cursor == -1 ==> r == s
  {
    if s.cursor > 0 then
      var k := s.cursor - 1;
      Session(s.history, k, s.history[|s.history| - 1 - k])
    else if s.cursor == 0 then
      Session(s.history, -1, "")
    else s
  }

  datatype Key = Enter | ArrowUp | ArrowDown | OtherKey

  /** The input box's key handler. Other keys reach the input as edits and
      are modelled by `Edit`. */
  function KeyDown(s: Session, key: Key): (o: Outcome)
    requires Valid(s)
    ensures Valid(o.session)
    ensures key != Enter ==> o.sent == None
    ensures o.sent.Some? ==> o.sent == Some(s.input) && !Blank(s.input)
  {
    match key
    case Enter => Submit(s)
    case ArrowUp => Outcome(Older(s), None)
    case ArrowDown => Outcome(Newer(s), None)
    case OtherKey => Outcome(s, None)
  }

  /** The send button is enabled exactly when a submit would send. */
  predicate SendEnabled(s: Session) {
    Trim(s.input) != ""
  }

  /** The send button is clickable exactly when clicking it sends. */
  lemma SendButtonMatchesSubmit(s: Session)
    requires Valid(s)
    ensures SendEnabled(s) <==> Submit(s).sent.Some?
    ensures SendEnabled(s) <==> !Blank(s.input)
  {
  }

  /** The console's user events: key presses and edits of the input. */
  datatype Input = Press(key: Key) | Type(text: string)

  function Step(s: Session, e: Input): (o: Outcome)
    requires Valid(s)
    ensures Valid(o.session)
  {
    match e
    case Press(key) => KeyDown(s, key)
    case Type(text) => Outcome(Edit(s, text), None)
  }

  /** Replays user events, collecting the commands forwarded on the way. */
  function Run(s: Session, events: seq<Input>): (o: (Session, seq<string>))
    requires Valid(s)
    ensures Valid(o.0)
    ensures |o.1| <= |events|
    ensures forall k :: 0 <= k < |o.1| ==> !Blank(o.1[k])
    decreases |events|
  {
    if events == [] then (s, [])
    else
      var first := Step(s, events[0]);
      var rest := Run(first.session, events[1..]);
      match first.sent
      case Some(c) => (rest.0, [c] + rest.1)
      case None => rest
  }

  /** The cursor invariant holds for the fresh panel and after every
      sequence of key presses and edits. */
  lemma FreshRunValid(events: seq<Input>)
    ensures Valid(Fresh)
    ensures Valid(Run(Fresh, events).0)
  {
  }

  /** ArrowUp applied `n` times. */
  function OlderN(s: Session, n: nat): (r: Session)
    requires Valid(s)
    ensures Valid(r) && r.history == s.history
    decreases n
  {
    if n == 0 then s else OlderN(Older(s), n - 1)
  }

  /** ArrowDown applied `n` times. */
  function NewerN(s: Session, n: nat): (r: Session)
    requires Valid(s)
    ensures Valid(r) && r.history == s.history
    decreases n
  {
    if n == 0 then s else NewerN(Newer(s), n - 1)
  }

  /** Pressing ArrowUp `n` times walks back `n` entries and stops at the
      oldest one, showing the entry the cursor points at. */
  lemma {:induction false} OlderSteps(s: Session, n: nat)
    requires Valid(s)
    ensures OlderN(s, n).cursor == Min(s.cursor + n, |s.history| - 1)
    ensures n > 0 && s.cursor < |s.history| - 1 ==>
      OlderN(s, n).input == Recalled(OlderN(s, n))
    ensures n == 0 || s.cursor == |s.history| - 1 ==> OlderN(s, n) == s
    decreases n
  {
    if n > 0 {
      OlderSteps(Older(s), n - 1);
    }
  }

  /** Pressing ArrowDown `n` times walks forward `n` entries, then to an
      empty input, and stops there. */
  lemma {:induction false} NewerSteps(s: Session, n: nat)
    requires Valid(s)
    ensures NewerN(s, n).cursor == Max(s.cursor - n, -1)
    ensures n > 0 && s.cursor - n >= 0 ==> NewerN(s, n).input == Recalled(NewerN(s, n))
    ensures n > 0 && s.cursor >= 0 && s.cursor - n < 0 ==> NewerN(s, n).input == ""
    ensures n == 0 || s.cursor == -1 ==> NewerN(s, n) == s
    decreases n
  {
    if n > 0 {
      NewerSteps(Newer(s), n - 1);
    }
  }

  /** Text typed over a recalled entry is discarded by the next ArrowUp or
      ArrowDown: navigation depends on the cursor, never on the input. */
  lemma TypingKeepsCursor(s: Session, text: string)
    requires Valid(s)
    ensures Edit(s, text).cursor == s.cursor
    ensures s.cursor < |s.history| - 1 ==> Older(Edit(s, text)) == Older(s)
    ensures s.cursor >= 0 ==> Newer(Edit(s, text)) == Newer(s)
  {
  }

  /** With history [a, b, c] and a fresh input: ArrowUp shows c, b, a and
      then stays at a; ArrowDown then shows b, c, an empty input, and then
      stays empty. */
  lemma HistoryWalk(a: string, b: string, c: string, typed: string)
    ensures var s0 := Session([a, b, c], -1, typed);
      && Valid(s0)
      && OlderN(s0, 1).input == c
      && OlderN(s0, 2).input == b
      && OlderN(s0, 3).input == a
      && OlderN(s0, 4).input == a
      && NewerN(OlderN(s0, 4), 1).input == b
      && NewerN(OlderN(s0, 4), 2).input == c
      && NewerN(OlderN(s0, 4), 3).input == ""
      && NewerN(OlderN(s0, 4), 4) == NewerN(OlderN(s0, 4), 3)
      && NewerN(OlderN(s0, 4), 4).cursor == -1
  {
    var s0 := Session([a, b, c], -1, typed);
    OlderSteps(s0, 1);
    OlderSteps(s0, 2);
    OlderSteps(s0, 3);
    OlderSteps(s0, 4);
    var top := OlderN(s0, 4);
    NewerSteps(top, 1);
    NewerSteps(top, 2);
    NewerSteps(top, 3);
    NewerSteps(top, 4);
  }

  /** After 51 submissions the first command can no longer be recalled:
      the full history drops its oldest entry. */
  lemma FullHistoryEvicts(s: Session)
    requires Valid(s) && |s.history| == HistoryLimit && !Blank(s.input)
    ensures Submit(s).session.history == s.history[1..] + [s.input]
  {
  }

  /** The level's name; the export shows it through toUpperCase(). */
  function LevelName(l: Level): string {
    match l
    case Info => "info"
    case Warning => "warning"
    case Error => "error"
    case Command => "command"
  }

  /** The upper-cased level names, as the export writes them. */
  lemma LevelLabels()
    ensures Upper(LevelName(Info)) == "INFO"
    ensures Upper(LevelName(Warning)) == "WARNING"
    ensures Upper(LevelName(Error)) == "ERROR"
    ensures Upper(LevelName(Command)) == "COMMAND"
  {
  }

  /** One exported line: `[timestamp] [LEVEL] message`. */
  function FormatLine(e: LogEntry): (line: string)
    ensures |line| == |e.timestamp| + |LevelName(e.level)| + |e.message| + 6
    ensures line[0] == '[' && line[1..|e.timestamp| + 1] == e.timestamp
    ensures line[|line| - |e.message|..] == e.message
  {
    "[" + e.timestamp + "] [" + Upper(LevelName(e.level)) + "] " + e.message
  }

  /** A line breaks only where the timestamp or the message does. */
  lemma FormatLineSingle(e: LogEntry)
    ensures '\n' in FormatLine(e) <==> '\n' in e.timestamp || '\n' in e.message
  {
    var tag := Upper(LevelName(e.level));
    assert '\n' !in tag;
    var line := FormatLine(e);
    assert line == "[" + e.timestamp + "] [" + tag + "] " + e.message;
  }

  /** The formatted lines, one per entry in log order. */
  function Lines(logs: seq<LogEntry>): (lines: seq<string>)
    ensures |lines| == |logs|
  {
    seq(|logs|, i requires 0 <= i < |logs| => FormatLine(logs[i]))
  }

  /** The exported text: the lines joined by newlines. */
  function ExportText(logs: seq<LogEntry>): (text: string)
    ensures text == [] <==> logs == []
    ensures logs != [] ==>
      |FormatLine(logs[0])| <= |text| && text[..|FormatLine(logs[0])|] == FormatLine(logs[0])
  {
    if logs == [] then Join(Lines(logs), '\n')
    else
      JoinStartsWithFirst(Lines(logs), '\n');
      Join(Lines(logs), '\n')
  }

  /** An entry exported after others adds a newline and its own line. */
  lemma ExportAppend(logs: seq<LogEntry>, e: LogEntry)
    ensures ExportText([]) == ""
    ensures ExportText([e]) == FormatLine(e)
    ensures logs != [] ==> ExportText(logs + [e]) == ExportText(logs) + "\n" + FormatLine(e)
  {
    if logs != [] {
      assert Lines(logs + [e]) == Lines(logs) + [FormatLine(e)];
      JoinSnoc(Lines(logs), FormatLine(e), '\n');
    }
  }

  /** Reading the export back line by line gives exactly one formatted line
      per entry, in log order, when no timestamp or message holds a newline. */
  lemma ExportLines(logs: seq<LogEntry>)
    requires logs != []
    requires forall k :: 0 <= k < |logs| ==> '\n' !in logs[k].timestamp && '\n' !in logs[k].message
    ensures Split(ExportText(logs), '\n') == Lines(logs)
    ensures forall k :: 0 <= k < |logs| ==> Split(ExportText(logs), '\n')[k] == FormatLine(logs[k])
  {
    forall k | 0 <= k < |logs| ensures '\n' !in Lines(logs)[k] {
      FormatLineSingle(logs[k]);
    }
    SplitJoin(Lines(logs), '\n');
  }
}

=== FILE: dashboard.dfy ===
/** The dashboard page's state and handlers (src/pages/Index.tsx): the
    list of server records, the start/stop/restart lifecycle with its
    delayed completions as explicit timed events, the per-server console
    logs, and the header aggregates. */
module Dashboard {
  import opened Sequences
  import Console

  datatype Status = Online | Offline | Starting | Stopping

  datatype Server = Server(
    id: string,
    name: string,
    status: Status,
    players: int,
    maxPlayers: int,
    mapName: string,
    port: int,
    cpu: int,
    ram: int,
    maxRam: int,
    uptime: string)

  /** Delays of the simulated lifecycle, in milliseconds. */
  const StartDelay: nat := 3000
  const StopDelay: nat := 2000
  const RestartDelay: nat := 3000

  /** The uptime strings the completions write. */
  const FreshUptime := "0h 1m"
  const ZeroUptime := "0h 0m"

  /** The four record updates the lifecycle handlers apply to the server
      with a given id: the immediate request and the delayed completion of
      start and of stop. */
  datatype Update = StartRequested | StartCompleted | StopRequested | StopCompleted

  /** The record after an update (the `{ ...server, ... }` spreads).
      Completions do not look at the current status. Only status, uptime
      and players can change, and players only by a stop completion. */
  function Apply(u: Update, s: Server): (r: Server)
    ensures r.(status := s.status, uptime := s.uptime, players := s.players) == s
    ensures r.status == match u
      case StartRequested => Starting
      case StartCompleted => Online
      case StopRequested => Stopping
      case StopCompleted => Offline
    ensures u != StopCompleted ==> r.players == s.players
    ensures u == StopCompleted ==> r.players == 0 && r.uptime == ZeroUptime
    ensures u == StartCompleted ==> r.uptime == FreshUptime
    ensures u.StartRequested? || u.StopRequested? ==> r.uptime == s.uptime
  {
    match u
    case StartRequested => s.(status := Starting)
    case StartCompleted => s.(status := Online, uptime := FreshUptime)
    case StopRequested => s.(status := Stopping)
    case StopCompleted => s.(status := Offline, uptime := ZeroUptime, players := 0)
  }

  /** `servers.map(s => s.id === id ? update(s) : s)`. */
  function UpdateWhere(servers: seq<Server>, id: string, u: Update): (r: seq<Server>)
    ensures |r| == |servers|
    ensures forall i :: 0 <= i < |r| && servers[i].id != id ==> r[i] == servers[i]
    ensures forall i :: 0 <= i < |r| && servers[i].id == id ==> r[i] == Apply(u, servers[i])
  {
    if servers == [] then []
    else
      var head := if servers[0].id == id then Apply(u, servers[0]) else servers[0];
      [head] + UpdateWhere(servers[1..], id, u)
  }

  /** The ids of the list, in order. */
  function Ids(servers: seq<Server>): seq<string> {
    seq(|servers|, i requires 0 <= i < |servers| => servers[i].id)
  }

  /** No update adds, removes, reorders or renames servers, and one aimed
      at an id that is not in the list changes nothing. */
  lemma UpdateKeepsList(servers: seq<Server>, id: string, u: Update)
    ensures Ids(UpdateWhere(servers, id, u)) == Ids(servers)
    ensures id !in Ids(servers) ==> UpdateWhere(servers, id, u) == servers
  {
    var r := UpdateWhere(servers, id, u);
    if id !in Ids(servers) {
      forall i | 0 <= i < |servers| ensures r[i] == servers[i] {
        assert Ids(servers)[i] == servers[i].id;
      }
    }
  }

  /** Start request: only the matching server's status changes, to
      starting. */
  lemma StartRequestFrame(servers: seq<Server>, id: string, i: int)
    requires 0 <= i < |servers|
    ensures var r := UpdateWhere(servers, id, StartRequested);
      && (servers[i].id == id ==> r[i] == servers[i].(status := Starting))
      && (servers[i].id != id ==> r[i] == servers[i])
  {
  }

  /** Start completion: the matching server goes online with a fresh
      uptime whatever its status was; its players and other fields stay. */
  lemma StartCompletionFrame(servers: seq<Server>, id: string, i: int)
    requires 0 <= i < |servers|
    ensures var r := UpdateWhere(servers, id, StartCompleted);
      && (servers[i].id == id ==> r[i] == servers[i].(status := Online, uptime := "0h 1m"))
      && (servers[i].id != id ==> r[i] == servers[i])
  {
  }

  /** Stop request: only the matching server's status changes, to
      stopping. */
  lemma StopRequestFrame(servers: seq<Server>, id: string, i: int)
    requires 0 <= i < |servers|
    ensures var r := UpdateWhere(servers, id, StopRequested);
      && (servers[i].id == id ==> r[i] == servers[i].(status := Stopping))
      && (servers[i].id != id ==> r[i] == servers[i])
  {
  }

  /** Stop completion: the matching server goes offline with no players
      and a zero uptime, whatever its previous values. */
  lemma StopCompletionFrame(servers: seq<Server>, id: string, i: int)
    requires 0 <= i < |servers|
    ensures var r := UpdateWhere(servers, id, StopCompleted);
      && (servers[i].id == id ==>
            r[i] == servers[i].(status := Offline, uptime := "0h 0m", players := 0))
      && (servers[i].id != id ==> r[i] == servers[i])
  {
  }

  /** A completion overrides whatever status its request (or anything
      else) left: the request adds nothing once its completion has run. */
  lemma CompletionSubsumesRequest(servers: seq<Server>, id: string)
    ensures UpdateWhere(UpdateWhere(servers, id, StartRequested), id, StartCompleted)
         == UpdateWhere(servers, id, StartCompleted)
    ensures UpdateWhere(UpdateWhere(servers, id, StopRequested), id, StopCompleted)
         == UpdateWhere(servers, id, StopCompleted)
  {
  }

  /** An update scheduled to be applied at time `at` (milliseconds). */
  datatype Timed = Timed(at: int, id: string, update: Update)

  /** The events are listed in the order their timers fire. */
  predicate Chronological(events: seq<Timed>) {
    forall i, j :: 0 <= i < j < |events| ==> events[i].at <= events[j].at
  }

  /** handleServerStart at time t: the request now, the completion 3000 ms
      later. */
  function StartEvents(id: string, t: int): (events: seq<Timed>)
    ensures Chronological(events)
    ensures |events| == 2
    ensures forall k :: 0 <= k < 2 ==> events[k].id == id
    ensures events[0] == Timed(t, id, StartRequested)
    ensures events[1] == Timed(t + 3000, id, StartCompleted)
  {
    [Timed(t, id, StartRequested), Timed(t + StartDelay, id, StartCompleted)]
  }

  /** handleServerStop at time t: the request now, the completion 2000 ms
      later. */
  function StopEvents(id: string, t: int): (events: seq<Timed>)
    ensures Chronological(events)
    ensures |events| == 2
    ensures forall k :: 0 <= k < 2 ==> events[k].id == id
    ensures events[0] == Timed(t, id, StopRequested)
    ensures events[1] == Timed(t + 2000, id, StopCompleted)
  {
    [Timed(t, id, StopRequested), Timed(t + StopDelay, id, StopCompleted)]
  }

  /** handleServerRestart at time t: a stop now and a start 3000 ms later,
      whether or not the stop has completed by then. */
  function RestartEvents(id: string, t: int): (events: seq<Timed>)
    ensures Chronological(events)
    ensures |events| == 4
    ensures forall k :: 0 <= k < 4 ==> events[k].id == id
    ensures events[0] == Timed(t, id, StopRequested)
    ensures events[1] == Timed(t + 2000, id, StopCompleted)
    ensures events[2] == Timed(t + 3000, id, StartRequested)
    ensures events[3] == Timed(t + 6000, id, StartCompleted)
  {
    StopEvents(id, t) + StartEvents(id, t + RestartDelay)
  }

  /** Applies the events in the order their timers fire. Whatever fires,
      the list keeps its servers, ids and order. */
  function Run(servers: seq<Server>, events: seq<Timed>): (r: seq<Server>)
    ensures |r| == |servers|
    ensures Ids(r) == Ids(servers)
    ensures forall i :: 0 <= i < |r| ==>
      r[i].(status := servers[i].status, uptime := servers[i].uptime, players := servers[i].players)
        == servers[i]
    decreases |events|
  {
    if events == [] then servers
    else
      UpdateKeepsList(servers, events[0].id, events[0].update);
      Run(UpdateWhere(servers, events[0].id, events[0].update), events[1..])
  }

  /** Replaying two batches of events in turn is replaying them together. */
  lemma {:induction false} RunAppend(servers: seq<Server>, a: seq<Timed>, b: seq<Timed>)
    ensures Run(servers, a + b) == Run(Run(servers, a), b)
    decreases |a|
  {
    if a != [] {
      var s1 := UpdateWhere(servers, a[0].id, a[0].update);
      assert (a + b)[0] == a[0] && (a + b)[1..] == a[1..] + b;
      assert Run(servers, a + b) == Run(s1, a[1..] + b);
      assert Run(servers, a) == Run(s1, a[1..]);
      RunAppend(s1, a[1..], b);
    } else {
      assert a + b == b;
    }
  }

  /** Two events for the same id, applied in turn. */
  lemma RunPair(servers: seq<Server>, e: Timed, f: Timed)
    requires e.id == f.id
    ensures Run(servers, [e, f]) == UpdateWhere(UpdateWhere(servers, e.id, e.update), e.id, f.update)
  {
    var s1 := UpdateWhere(servers, e.id, e.update);
    assert [e, f][1..] == [f] && [f][1..] == [];
    assert Run(servers, [e, f]) == Run(s1, [f]) == Run(UpdateWhere(s1, f.id, f.update), []);
  }

  /** Once its timer has fired, a start leaves exactly what its completion
      alone would: the request is overwritten. */
  lemma StartOutcome(servers: seq<Server>, id: string, t: int)
    ensures Run(servers, StartEvents(id, t)) == UpdateWhere(servers, id, StartCompleted)
  {
    var e := StartEvents(id, t);
    RunPair(servers, e[0], e[1]);
    assert e == [e[0], e[1]];
    CompletionSubsumesRequest(servers, id);
  }

  /** Once its timer has fired, a stop leaves exactly what its completion
      alone would. */
  lemma StopOutcome(servers: seq<Server>, id: string, t: int)
    ensures Run(servers, StopEvents(id, t)) == UpdateWhere(servers, id, StopCompleted)
  {
    var e := StopEvents(id, t);
    RunPair(servers, e[0], e[1]);
    assert e == [e[0], e[1]];
    CompletionSubsumesRequest(servers, id);
  }

  /** With no other events in between, a restart leaves the server online
      with no players and a fresh uptime, and touches no other server. */
  lemma RestartOutcome(servers: seq<Server>, id: string, t: int, i: int)
    requires 0 <= i < |servers|
    ensures var r := Run(servers, RestartEvents(id, t));
      && (servers[i].id == id ==>
            r[i] == servers[i].(status := Online, players := 0, uptime := "0h 1m"))
      && (servers[i].id != id ==> r[i] == servers[i])
  {
    var e := RestartEvents(id, t);
    var s1 := UpdateWhere(servers, id, StopRequested);
    var s2 := UpdateWhere(s1, id, StopCompleted);
    var s3 := UpdateWhere(s2, id, StartRequested);
    var s4 := UpdateWhere(s3, id, StartCompleted);
    var e1 := e[1..];
    var e2 := e1[1..];
    var e3 := e2[1..];
    assert e1[0] == e[1] && e2[0] == e[2] && e3[0] == e[3] && e3[1..] == [];
    assert Run(servers, e) == Run(s1, e1) == Run(s2, e2) == Run(s3, e3) == Run(s4, e3[1..]) == s4;
  }

  /** The console logs, keyed by server id. */
  type Logs = map<string, seq<Console.LogEntry>>

  /** `logs[id] || []`: the log a console shows for a server. */
  function LogOf(logs: Logs, id: string): (r: seq<Console.LogEntry>)
    ensures r == [] <==> id !in logs || logs[id] == []
    ensures forall k :: 0 <= k < |r| ==> id in logs && k < |logs[id]| && r[k] == logs[id][k]
  {
    if id in logs then logs[id] else []
  }

  /** handleSendCommand: appends one `command` entry echoing the command to
      that server's log, creating the log if absent; no other log changes. */
  function SendCommand(logs: Logs, id: string, command: string, timestamp: string): (r: Logs)
    ensures r.Keys == logs.Keys + {id}
    ensures forall k :: k in logs && k != id ==> r[k] == logs[k]
    ensures |LogOf(r, id)| == |LogOf(logs, id)| + 1
    ensures LogOf(r, id)[..|LogOf(logs, id)|] == LogOf(logs, id)
    ensures LogOf(r, id)[|LogOf(logs, id)|] == Console.LogEntry(timestamp, Console.Command, "> " + command)
  {
    logs[id := LogOf(logs, id) + [Console.LogEntry(timestamp, Console.Command, "> " + command)]]
  }

  /** The clear-logs callback: empties one server's log and no other. */
  function ClearLogs(logs: Logs, id: string): (r: Logs)
    ensures r.Keys == logs.Keys + {id}
    ensures LogOf(r, id) == []
    ensures forall k :: k in logs && k != id ==> r[k] == logs[k]
  {
    logs[id := []]
  }

  predicate IsOnline(s: Server) { s.status == Online }

  /** onlineServers: how many servers are online. */
  function OnlineServers(servers: seq<Server>): (n: nat)
    ensures n <= |servers|
    ensures n == 0 <==> forall i :: 0 <= i < |servers| ==> servers[i].status != Online
    ensures n == |servers| <==> forall i :: 0 <= i < |servers| ==> servers[i].status == Online
  {
    var online := Filter(servers, IsOnline);
    assert forall i :: 0 <= i < |servers| && servers[i].status == Online ==> servers[i] in online;
    assert |online| > 0 ==> online[0] in servers && IsOnline(online[0]);
    assert |online| > 0 ==> exists i :: 0 <= i < |servers| && servers[i] == online[0];
    |online|
  }

  /** totalPlayers: the sum of the players of every server. */
  function TotalPlayers(servers: seq<Server>): (n: int)
    ensures (forall i :: 0 <= i < |servers| ==> servers[i].players >= 0) ==> n >= 0
    ensures (forall i :: 0 <= i < |servers| ==> servers[i].players == 0) ==> n == 0
  {
    if servers == [] then 0 else servers[0].players + TotalPlayers(servers[1..])
  }

  /** Selects the records with the given id. */
  function HasId(id: string): Server -> bool {
    (x: Server) => x.id == id
  }

  /** Only a stop completion changes the player total: it subtracts the
      players of the servers it stops, and every other update keeps it. */
  lemma {:induction false} PlayersAfterUpdate(servers: seq<Server>, id: string, u: Update)
    ensures u != StopCompleted ==>
      TotalPlayers(UpdateWhere(servers, id, u)) == TotalPlayers(servers)
    ensures u == StopCompleted ==>
      TotalPlayers(UpdateWhere(servers, id, u))
        == TotalPlayers(servers) - TotalPlayers(Filter(servers, HasId(id)))
  {
    if servers != [] {
      PlayersAfterUpdate(servers[1..], id, u);
      assert UpdateWhere(servers, id, u)[1..] == UpdateWhere(servers[1..], id, u);
    }
  }

  /** The online count of a non-empty list: its head, then the rest. */
  lemma OnlineCons(servers: seq<Server>)
    requires servers != []
    ensures OnlineServers(servers)
         == (if IsOnline(servers[0]) then 1 else 0) + OnlineServers(servers[1..])
  {
  }

  /** A start completion never lowers the online count; every other update
      never raises it. */
  lemma {:induction false} OnlineAfterUpdate(servers: seq<Server>, id: string, u: Update)
    ensures u == StartCompleted ==>
      OnlineServers(UpdateWhere(servers, id, u)) >= OnlineServers(servers)
    ensures u != StartCompleted ==>
      OnlineServers(UpdateWhere(servers, id, u)) <= OnlineServers(servers)
  {
    if servers != [] {
      OnlineAfterUpdate(servers[1..], id, u);
      var r := UpdateWhere(servers, id, u);
      assert r[1..] == UpdateWhere(servers[1..], id, u);
      OnlineCons(r);
      OnlineCons(servers);
    }
  }

  /** After a start completion for an id in the list, at least one server
      is online. */
  lemma StartCompletionOnline(servers: seq<Server>, id: string)
    requires id in Ids(servers)
    ensures OnlineServers(UpdateWhere(servers, id, StartCompleted)) >= 1
  {
    var k :| 0 <= k < |servers| && Ids(servers)[k] == id;
    assert UpdateWhere(servers, id, StartCompleted)[k].status == Online;
  }

  /** A command sent from the console panel is logged verbatim after "> ":
      the untrimmed input, exactly once. */
  lemma SubmitEchoes(s: Console.Session, logs: Logs, id: string, timestamp: string)
    requires Console.Valid(s)
    ensures var o := Console.Submit(s);
      o.sent.Some? ==>
        var r := SendCommand(logs, id, o.sent.value, timestamp);
        && |LogOf(r, id)| == |LogOf(logs, id)| + 1
        && LogOf(r, id)[|LogOf(logs, id)|].message == "> " + s.input
  {
  }
}

=== FILE: files.dfy ===
/** The file browser's pure logic (src/components/gaming/FileManager.tsx):
    the search filter, the path segments and the navigation targets, the
    new-folder form, the file classification and the "-" size label. */
module Files {
  import opened Wrappers
  import opened Sequences
  import opened Strings

  datatype Kind = File | Folder

  datatype FileItem = FileItem(
    name: string,
    kind: Kind,
    size: Option<int>,
    lastModified: string,
    permissions: string)

  /** The search matches a file when its lower-cased name contains the
      lower-cased term. */
  predicate Matches(f: FileItem, term: string) {
    Contains(Lower(f.name), Lower(term))
  }

  function MatchesTerm(term: string): FileItem -> bool {
    (f: FileItem) => Matches(f, term)
  }

  /** filteredFiles: the matching files in their listed order. */
  function FilteredFiles(files: seq<FileItem>, term: string): (r: seq<FileItem>)
    ensures |r| <= |files|
    ensures forall k :: 0 <= k < |r| ==> r[k] in files && Matches(r[k], term)
    ensures forall k :: 0 <= k < |files| && Matches(files[k], term) ==> files[k] in r
  {
    Filter(files, MatchesTerm(term))
  }

  /** An empty search term keeps every file, in order. */
  lemma EmptySearchKeepsAll(files: seq<FileItem>)
    ensures FilteredFiles(files, "") == files
  {
    forall k | 0 <= k < |files| ensures MatchesTerm("")(files[k]) {
      assert OccursAt(Lower(files[k].name), "", 0);
    }
    FilterKeepsAll(files, MatchesTerm(""));
  }

  /** The search ignores the case of its term. */
  lemma SearchIgnoresTermCase(files: seq<FileItem>, term: string)
    ensures FilteredFiles(files, Lower(term)) == FilteredFiles(files, term)
    ensures FilteredFiles(files, Upper(term)) == FilteredFiles(files, term)
  {
    LowerIdempotent(term);
    FilterSameTest(files, MatchesTerm(Lower(term)), MatchesTerm(term));
    FilterSameTest(files, MatchesTerm(Upper(term)), MatchesTerm(term));
  }

  /** Filtering a listing split in two filters each part, keeping the
      relative order of the survivors. */
  lemma SearchKeepsOrder(a: seq<FileItem>, b: seq<FileItem>, term: string)
    ensures FilteredFiles(a + b, term) == FilteredFiles(a, term) + FilteredFiles(b, term)
  {
    FilterAppend(a, b, MatchesTerm(term));
  }

  predicate NonEmptySegment(p: string) { p != [] }

  /** pathParts: the non-empty segments of the path split on "/". */
  function PathParts(path: string): (parts: seq<string>)
    ensures forall k :: 0 <= k < |parts| ==> parts[k] != [] && '/' !in parts[k]
  {
    Filter(Split(path, '/'), NonEmptySegment)
  }

  /** The segments of the root, and of the empty path, are none. */
  lemma RootHasNoParts()
    ensures PathParts("/") == []
    ensures PathParts("") == []
  {
    assert "/" == [] + ['/'] + [];
    SplitAtSep([], [], '/');
  }

  /** A slash separates the segments of its two sides; extra slashes add
      no segments. */
  lemma PartsAtSlash(a: string, b: string)
    ensures PathParts(a + ['/'] + b) == PathParts(a) + PathParts(b)
  {
    SplitAtSep(a, b, '/');
    FilterAppend(Split(a, '/'), Split(b, '/'), NonEmptySegment);
  }

  /** Joining non-empty, slash-free segments with "/" and splitting the
      result into path parts gives the segments back. */
  lemma PartsOfJoin(parts: seq<string>)
    requires forall k :: 0 <= k < |parts| ==> parts[k] != [] && '/' !in parts[k]
    ensures PathParts(Join(parts, '/')) == parts
  {
    if parts == [] {
      RootHasNoParts();
    } else {
      SplitJoin(parts, '/');
      FilterKeepsAll(parts, NonEmptySegment);
    }
  }

  /** The Home button's target. */
  const Home := "/"

  /** The Home button goes to the root from anywhere: a path with no
      segments, whose parent button is disabled. */
  function HomeTarget(path: string): (target: string)
    ensures PathParts(target) == []
    ensures ParentTarget(target) == None
  {
    RootHasNoParts();
    Home
  }

  /** The parent button: None while disabled (no segments), otherwise every
      segment but the last joined by "/", or "/" when that join is empty. */
  function ParentTarget(path: string): (target: Option<string>)
    ensures target.None? <==> PathParts(path) == []
    ensures target.Some? ==> target.value == "/" || (target.value != [] && target.value[0] != '/')
  {
    var parts := PathParts(path);
    if |parts| == 0 then None
    else
      var up := Join(parts[..|parts| - 1], '/');
      assert up != [] ==> up[0] != '/' by {
        if up != [] { JoinFirst(parts[..|parts| - 1]); }
      }
      Some(if up == "" then "/" else up)
  }

  /** A join of non-empty segments starts with the first segment. */
  lemma JoinFirst(parts: seq<string>)
    requires forall k :: 0 <= k < |parts| ==> parts[k] != [] && '/' !in parts[k]
    ensures Join(parts, '/') != [] ==> Join(parts, '/')[0] == parts[0][0]
  {
  }

  /** Going up drops exactly the last segment. */
  lemma ParentDropsLast(path: string)
    requires PathParts(path) != []
    ensures var parts := PathParts(path);
      PathParts(ParentTarget(path).value) == parts[..|parts| - 1]
  {
    var parts := PathParts(path);
    var up := parts[..|parts| - 1];
    PartsOfJoin(up);
    RootHasNoParts();
  }

  /** Clicking a folder: `${path}/${name}` with the first "//" replaced by
      "/"; clicking a file navigates nowhere. */
  function ChildTarget(path: string, f: FileItem): (target: Option<string>)
    ensures target.Some? <==> f.kind == Folder
  {
    if f.kind == Folder then Some(ReplaceFirst(path + "/" + f.name, "//", "/")) else None
  }

  /** Replacing "//" by "/" at an occurrence keeps the segments. */
  lemma CollapseAt(a: string, b: string)
    ensures PathParts(a + "//" + b) == PathParts(a + "/" + b)
  {
    assert a + "//" + b == a + ['/'] + (['/'] + b);
    assert ['/'] + b == [] + ['/'] + b;
    assert a + "/" + b == a + ['/'] + b;
    PartsAtSlash(a, ['/'] + b);
    PartsAtSlash([], b);
    RootHasNoParts();
    PartsAtSlash(a, b);
  }

  /** Collapsing the first "//" keeps the path's segments. */
  lemma CollapseKeepsParts(s: string)
    ensures PathParts(ReplaceFirst(s, "//", "/")) == PathParts(s)
  {
    if Contains(s, "//") {
      var i :| && OccursAt(s, "//", i)
               && ReplaceFirst(s, "//", "/") == s[..i] + "/" + s[i + 2..];
      assert |"//"| == 2 && OccursAt(s, "//", i);
      assert s == s[..i] + "//" + s[i + 2..];
      CollapseAt(s[..i], s[i + 2..]);
    }
  }

  /** Opening a folder appends exactly its name as a segment. */
  lemma ChildAppendsName(path: string, f: FileItem)
    requires f.kind == Folder && f.name != [] && '/' !in f.name
    ensures PathParts(ChildTarget(path, f).value) == PathParts(path) + [f.name]
  {
    CollapseKeepsParts(path + "/" + f.name);
    PartsAtSlash(path, f.name);
    PartsOfJoin([f.name]);
  }

  /** Going up from a folder just opened returns to the same segments. */
  lemma ParentOfChild(path: string, f: FileItem)
    requires f.kind == Folder && f.name != [] && '/' !in f.name
    ensures var child := ChildTarget(path, f).value;
      ParentTarget(child).Some? && PathParts(ParentTarget(child).value) == PathParts(path)
  {
    var child := ChildTarget(path, f).value;
    ChildAppendsName(path, f);
    ParentDropsLast(child);
    var parts := PathParts(path) + [f.name];
    assert parts[..|parts| - 1] == PathParts(path);
  }

  /** The segments of "/a/b" are "a" and "b". */
  lemma PartsExample()
    ensures PathParts("/a/b") == ["a", "b"]
  {
    RootHasNoParts();
    assert Join(["a", "b"], '/') == "a/b";
    assert "/a/b" == [] + ['/'] + "a/b";
    PartsAtSlash([], "a/b");
    PartsOfJoin(["a", "b"]);
  }

  /** Going up from "/a/b" lands on "a", without the leading slash. */
  lemma ParentExample()
    ensures ParentTarget("/a/b") == Some("a")
  {
    PartsExample();
    assert ["a", "b"][..1] == ["a"];
  }

  /** Going up from "/a" lands on the root, and the root has no parent. */
  lemma ParentOfTopLevel()
    ensures ParentTarget("/a") == Some("/")
    ensures ParentTarget("/") == None
  {
    RootHasNoParts();
    assert "/a" == [] + ['/'] + "a";
    PartsAtSlash([], "a");
    PartsOfJoin(["a"]);
    assert ["a"][..0] == [];
  }

  /** Opening "addons" from the root gives "/addons"; opening "maps" from
      "/cfg" gives "/cfg/maps". */
  lemma ChildExamples()
    ensures ChildTarget("/", FileItem("addons", Folder, None, "", "")) == Some("/addons")
    ensures ChildTarget("/cfg", FileItem("maps", Folder, None, "", "")) == Some("/cfg/maps")
  {
    assert "/" + "/" + "addons" == "//addons";
    assert OccursAt("//addons", "//", 0);
    assert IndexOf("//addons", "//", 0) == Some(0);
    assert "//addons"[..0] + "/" + "//addons"[2..] == "/addons";
    var s := "/cfg" + "/" + "maps";
    assert s == "/cfg/maps";
    forall j | 0 <= j ensures !OccursAt(s, "//", j) {
      if j + 2 <= |s| {
        assert s[j..j + 2][0] == s[j];
        assert s[j..j + 2][1] == s[j + 1];
      }
    }
  }

  /** The new-folder form: the typed name and whether the form is shown. */
  datatype FolderForm = FolderForm(name: string, shown: bool)

  /** handleCreateFolder: a name that is not blank is passed on trimmed,
      the input is cleared and the form hidden; a blank one changes
      nothing. */
  function CreateFolder(form: FolderForm): (o: (FolderForm, Option<string>))
    ensures Blank(form.name) ==> o == (form, None)
    ensures !Blank(form.name) ==>
      && o.0 == FolderForm("", false)
      && o.1.Some? && o.1.value != []
      && TrimmedFrom(o.1.value, form.name)
  {
    var trimmed := Trim(form.name);
    if trimmed != "" then (FolderForm("", false), Some(trimmed)) else (form, None)
  }

  /** The row icon of a listing entry. */
  datatype Icon = FolderIcon | WarningFile | PrimaryFile | PlainFile

  /** The text after the last ".", or the whole name when it has none. */
  function LastDotPart(name: string): (part: string)
    ensures '.' !in part
    ensures '.' !in name ==> part == name
    ensures '.' in name ==>
      |part| < |name| && name == name[..|name| - |part| - 1] + ['.'] + part
  {
    SplitLast(name, '.');
    var pieces := Split(name, '.');
    pieces[|pieces| - 1]
  }

  /** `name.split('.').pop().toLowerCase()`. */
  function Extension(name: string): (ext: string)
    ensures '.' !in ext
    ensures |ext| == |LastDotPart(name)|
  {
    Lower(LastDotPart(name))
  }

  /** getFileIcon. */
  function FileIcon(f: FileItem): (r: Icon)
    ensures r == FolderIcon <==> f.kind == Folder
  {
    if f.kind == Folder then FolderIcon
    else
      var ext := Extension(f.name);
      if ext == "cfg" || ext == "txt" || ext == "log" then WarningFile
      else if ext == "lua" then PrimaryFile
      else PlainFile
  }

  /** The icon table: folders get the folder icon whatever their name;
      files are classified by their lower-cased extension alone. */
  lemma IconTable(f: FileItem)
    ensures f.kind == Folder ==> FileIcon(f) == FolderIcon
    ensures f.kind == File ==>
      && (FileIcon(f) == WarningFile <==> Extension(f.name) in {"cfg", "txt", "log"})
      && (FileIcon(f) == PrimaryFile <==> Extension(f.name) == "lua")
      && (FileIcon(f) == PlainFile <==> Extension(f.name) !in {"cfg", "txt", "log", "lua"})
  {
  }

  /** Classification ignores the case of the name. */
  lemma IconIgnoresCase(f: FileItem)
    ensures FileIcon(f.(name := Lower(f.name))) == FileIcon(f)
  {
    LowerKeepsDots(f.name);
    LowerIdempotent(LastDotPart(f.name));
  }

  /** Lower-casing commutes with taking the last dotted part. */
  lemma LowerKeepsDots(name: string)
    ensures LastDotPart(Lower(name)) == Lower(LastDotPart(name))
  {
    var low := Lower(name);
    var part := LastDotPart(name);
    var lowPart := LastDotPart(low);
    assert forall i :: 0 <= i < |name| ==> (name[i] == '.' <==> low[i] == '.');
    if '.' !in name {
      assert '.' !in low;
    } else {
      assert '.' in low;
      var k := |name| - |part| - 1;
      var k' := |low| - |lowPart| - 1;
      assert name[k] == '.' && low[k'] == '.';
      assert forall i :: k < i < |name| ==> name[i] != '.';
      assert forall i :: k' < i < |low| ==> low[i] != '.';
      assert k == k';
      assert lowPart == low[k + 1..];
      assert part == name[k + 1..];
    }
  }

  /** The extension is what follows the last dot: "server" + ".cfg" has
      extension "cfg", "init" + ".LUA" has "lua". */
  lemma ExtensionAfterLastDot(stem: string, ext: string)
    requires '.' !in ext
    ensures LastDotPart(stem + "." + ext) == ext
    ensures Extension(stem + "." + ext) == Lower(ext)
  {
    assert stem + "." + ext == stem + ['.'] + ext;
    SplitAtSep(stem, ext, '.');
    SplitWithoutSep(ext, '.');
  }

  /** A file named `stem.ext` is classified by `ext` alone, whatever the
      stem (which may itself contain dots) and whatever the case of `ext`. */
  lemma IconByExtension(stem: string, ext: string, size: Option<int>, modified: string, perms: string)
    requires '.' !in ext
    ensures var icon := FileIcon(FileItem(stem + "." + ext, File, size, modified, perms));
      && (Lower(ext) in {"cfg", "txt", "log"} ==> icon == WarningFile)
      && (Lower(ext) == "lua" ==> icon == PrimaryFile)
      && (Lower(ext) !in {"cfg", "txt", "log", "lua"} ==> icon == PlainFile)
  {
    ExtensionAfterLastDot(stem, ext);
  }

  /** A name without a dot is its own extension, so a file named just
      "log" gets the warning icon. */
  lemma DotlessName(name: string, size: Option<int>, modified: string, perms: string)
    requires '.' !in name
    ensures Extension(name) == Lower(name)
    ensures Lower(name) == "log" ==> FileIcon(FileItem(name, File, size, modified, perms)) == WarningFile
  {
  }

  /** The badge of a file row: `name.split('.').pop().toUpperCase()`. */
  function ExtensionBadge(name: string): (badge: string)
    ensures '.' !in badge
    ensures Lower(badge) == Extension(name)
  {
    LowerIdempotent(LastDotPart(name));
    Upper(LastDotPart(name))
  }

  /** The size column: "-" for a missing or zero size; any other size is
      shown through a unit computation this model does not cover. */
  datatype SizeLabel = Dash | Formatted(bytes: int)

  /** formatFileSize, "-" branch. */
  function FormatFileSize(size: Option<int>): (shown: SizeLabel)
    ensures shown == Dash <==> size == None || size == Some(0)
    ensures shown.Formatted? ==> shown.bytes == size.value && shown.bytes != 0
  {
    match size
    case None => Dash
    case Some(b) => if b == 0 then Dash else Formatted(b)
  }
}

=== FILE: sequences.dfy ===
/** Generic sequence helpers shared by the dashboard components. */
module Sequences {

  function Min(a: int, b: int): int { if a <= b then a else b }

  function Max(a: int, b: int): int { if a >= b then a else b }

  /** Array.prototype.filter: the elements of `xs` that `keep` accepts, in
      their original order. */
  function Filter<T>(xs: seq<T>, keep: T -> bool): (r: seq<T>)
    ensures |r| <= |xs|
    ensures forall k :: 0 <= k < |r| ==> keep(r[k])
    ensures forall k :: 0 <= k < |r| ==> r[k] in xs
    ensures forall k :: 0 <= k < |xs| && keep(xs[k]) ==> xs[k] in r
    ensures |r| == |xs| <==> forall k :: 0 <= k < |xs| ==> keep(xs[k])
  {
    if xs == [] then []
    else
      var rest := Filter(xs[1..], keep);
      assert forall k :: 1 <= k < |xs| ==> xs[k] == xs[1..][k - 1];
      if keep(xs[0]) then [xs[0]] + rest else rest
  }

  /** Filtering distributes over concatenation: relative order is kept. */
  lemma {:induction false} FilterAppend<T>(a: seq<T>, b: seq<T>, keep: T -> bool)
    ensures Filter(a + b, keep) == Filter(a, keep) + Filter(b, keep)
  {
    if a != [] {
      assert (a + b)[1..] == a[1..] + b;
      FilterAppend(a[1..], b, keep);
    } else {
      assert a + b == b;
    }
  }

  /** When every element is accepted, filtering is the identity. */
  lemma {:induction false} FilterKeepsAll<T>(xs: seq<T>, keep: T -> bool)
    requires forall k :: 0 <= k < |xs| ==> keep(xs[k])
    ensures Filter(xs, keep) == xs
  {
    if xs != [] {
      FilterKeepsAll(xs[1..], keep);
      assert [xs[0]] + xs[1..] == xs;
    }
  }

  /** Two tests that agree on every element filter alike. */
  lemma {:induction false} FilterSameTest<T>(xs: seq<T>, keep: T -> bool, keep': T -> bool)
    requires forall k :: 0 <= k < |xs| ==> keep(xs[k]) == keep'(xs[k])
    ensures Filter(xs, keep) == Filter(xs, keep')
  {
    if xs != [] {
      FilterSameTest(xs[1..], keep, keep');
    }
  }

}

=== FILE: strings.dfy ===
/** The JavaScript string operations the dashboard relies on, over
    `string` (a sequence of characters): `trim`, ASCII `toLowerCase` and
    `toUpperCase`, `includes`, `indexOf`, `replace` with a string pattern,
    `split` on one character and `Array.prototype.join`. */
module Strings {
  import opened Wrappers

  /** The code points `String.prototype.trim` strips: the ECMAScript
      WhiteSpace and LineTerminator productions. */
  const Whitespace: set<char> := {
      '\U{0009}', '\U{000A}', '\U{000B}', '\U{000C}', '\U{000D}', '\U{0020}', '\U{00A0}',
      '\U{1680}', '\U{2000}', '\U{2001}', '\U{2002}', '\U{2003}', '\U{2004}', '\U{2005}',
      '\U{2006}', '\U{2007}', '\U{2008}', '\U{2009}', '\U{200A}', '\U{2028}', '\U{2029}',
      '\U{202F}', '\U{205F}', '\U{3000}', '\U{FEFF}'
    }

  predicate IsWhitespace(c: char) {
    c in Whitespace
  }

  /** A string made only of whitespace (the empty string included). */
  predicate Blank(s: string) {
    forall i :: 0 <= i < |s| ==> IsWhitespace(s[i])
  }

  /** Every character of `s` at an index in [lo, hi) is whitespace. */
  predicate BlankBetween(s: string, lo: int, hi: int) {
    forall i :: lo <= i < hi && 0 <= i < |s| ==> IsWhitespace(s[i])
  }

  /** `s` without its leading whitespace. */
  function TrimStart(s: string): (r: string)
    ensures |r| <= |s| && r == s[|s| - |r|..]
    ensures BlankBetween(s, 0, |s| - |r|)
    ensures r != [] ==> !IsWhitespace(r[0])
  {
    if s != [] && IsWhitespace(s[0]) then
      var r := TrimStart(s[1..]);
      assert forall i :: 1 <= i < |s| ==> s[i] == s[1..][i - 1];
      r
    else s
  }

  /** `s` without its trailing whitespace. */
  function TrimEnd(s: string): (r: string)
    ensures |r| <= |s| && r == s[..|r|]
    ensures BlankBetween(s, |r|, |s|)
    ensures r != [] ==> !IsWhitespace(r[|r| - 1])
  {
    if s != [] && IsWhitespace(s[|s| - 1]) then
      var r := TrimEnd(s[..|s| - 1]);
      assert forall i :: 0 <= i < |s| - 1 ==> s[i] == s[..|s| - 1][i];
      r
    else s
  }

  /** `r` is the part of `s` that starts at index `k`. */
  predicate InfixAt(r: string, s: string, k: int) {
    0 <= k && k + |r| <= |s| && r == s[k..k + |r|]
  }

  /** `r` is `s` with its leading and trailing whitespace cut off: an infix
      of `s`, surrounded in `s` by whitespace only, that neither starts nor
      ends with whitespace, and empty exactly when `s` is blank. */
  predicate TrimmedFrom(r: string, s: string) {
    && (r == [] <==> Blank(s))
    && (r != [] ==> !IsWhitespace(r[0]) && !IsWhitespace(r[|r| - 1]))
    && exists k | 0 <= k <= |s| ::
         InfixAt(r, s, k) && BlankBetween(s, 0, k) && BlankBetween(s, k + |r|, |s|)
  }

  /** String.prototype.trim. */
  function Trim(s: string): (r: string)
    ensures TrimmedFrom(r, s)
  {
    TrimFacts(s);
    TrimEnd(TrimStart(s))
  }

  lemma {:induction false} TrimFacts(s: string)
    ensures TrimmedFrom(TrimEnd(TrimStart(s)), s)
  {
    TrimInfix(s);
    TrimTrailing(s);
    TrimEmpty(s);
    TrimNonEmpty(s);
    var k := |s| - |TrimStart(s)|;
    assert InfixAt(TrimEnd(TrimStart(s)), s, k);
  }

  lemma {:induction false} TrimInfix(s: string)
    ensures InfixAt(TrimEnd(TrimStart(s)), s, |s| - |TrimStart(s)|)
  {
  }

  lemma {:induction false} TrimTrailing(s: string)
    ensures var t := TrimStart(s); var r := TrimEnd(t); var k := |s| - |t|;
      BlankBetween(s, k + |r|, |s|)
  {
    var t := TrimStart(s);
    var r := TrimEnd(t);
    var k := |s| - |t|;
    forall i | k + |r| <= i < |s| ensures IsWhitespace(s[i]) {
      assert s[i] == t[i - k];
    }
  }

  lemma {:induction false} TrimEmpty(s: string)
    ensures TrimEnd(TrimStart(s)) == [] ==> Blank(s)
  {
    var t := TrimStart(s);
    var r := TrimEnd(t);
    var k := |s| - |t|;
    if r == [] {
      forall i | 0 <= i < |s| ensures IsWhitespace(s[i]) {
        if i >= k {
          assert s[i] == t[i - k];
        }
      }
    }
  }

  lemma {:induction false} TrimNonEmpty(s: string)
    ensures var r := TrimEnd(TrimStart(s));
      r != [] ==> !Blank(s) && !IsWhitespace(r[0])
  {
    var t := TrimStart(s);
    var r := TrimEnd(t);
    var k := |s| - |t|;
    if r != [] {
      assert r[0] == t[0] == s[k];
    }
  }

  /** ASCII-only `toLowerCase` of one character. */
  function LowerChar(c: char): char {
    if 'A' <= c <= 'Z' then (c as int + 32) as char else c
  }

  /** ASCII-only `toUpperCase` of one character. */
  function UpperChar(c: char): char {
    if 'a' <= c <= 'z' then (c as int - 32) as char else c
  }

  predicate IsUpperLetter(c: char) { 'A' <= c <= 'Z' }

  predicate IsLowerLetter(c: char) { 'a' <= c <= 'z' }

  /** String.prototype.toLowerCase, restricted to ASCII letters. */
  function Lower(s: string): (r: string)
    ensures |r| == |s|
    ensures forall i :: 0 <= i < |s| ==> !IsUpperLetter(r[i])
    ensures forall i :: 0 <= i < |s| && !IsUpperLetter(s[i]) ==> r[i] == s[i]
    ensures forall i :: 0 <= i < |s| ==> UpperChar(r[i]) == UpperChar(s[i])
  {
    seq(|s|, i requires 0 <= i < |s| => LowerChar(s[i]))
  }

  /** String.prototype.toUpperCase, restricted to ASCII letters. */
  function Upper(s: string): (r: string)
    ensures |r| == |s|
    ensures forall i :: 0 <= i < |s| ==> !IsLowerLetter(r[i])
    ensures forall i :: 0 <= i < |s| && !IsLowerLetter(s[i]) ==> r[i] == s[i]
    ensures forall i :: 0 <= i < |s| ==> LowerChar(r[i]) == LowerChar(s[i])
  {
    seq(|s|, i requires 0 <= i < |s| => UpperChar(s[i]))
  }

  /** Lowering is idempotent, and lowering forgets any earlier upper-casing. */
  lemma LowerIdempotent(s: string)
    ensures Lower(Lower(s)) == Lower(s)
    ensures Lower(Upper(s)) == Lower(s)
  {
  }

  /** `pat` occurs in `s` starting at index `i`. */
  predicate OccursAt(s: string, pat: string, i: int) {
    0 <= i && i + |pat| <= |s| && s[i..i + |pat|] == pat
  }

  /** String.prototype.includes. */
  predicate Contains(s: string, pat: string)
    ensures Contains(s, pat) <==> IndexOf(s, pat, 0).Some?
    ensures Contains(s, pat) ==> |pat| <= |s|
  {
    exists i | 0 <= i <= |s| :: OccursAt(s, pat, i)
  }

  /** String.prototype.indexOf(pat, from): the first occurrence of `pat` at
      or after `from`, or None (JavaScript's -1). As in JavaScript, a start
      past the end is clamped to |s|, so the empty pattern is found there. */
  function IndexOf(s: string, pat: string, from: nat): (r: Option<nat>)
    ensures r.Some? ==> Clamp(from, |s|) <= r.value && OccursAt(s, pat, r.value)
    ensures r.Some? ==> forall j :: Clamp(from, |s|) <= j < r.value ==> !OccursAt(s, pat, j)
    ensures r.None? ==> forall j :: Clamp(from, |s|) <= j ==> !OccursAt(s, pat, j)
  {
    SearchFrom(s, pat, Clamp(from, |s|))
  }

  /** `from`, but no larger than `len`. */
  function Clamp(from: nat, len: nat): nat {
    if from < len then from else len
  }

  /** The search behind IndexOf, from a start that is already in range. */
  function SearchFrom(s: string, pat: string, from: nat): (r: Option<nat>)
    ensures r.Some? ==> from <= r.value && OccursAt(s, pat, r.value)
    ensures r.Some? ==> forall j :: from <= j < r.value ==> !OccursAt(s, pat, j)
    ensures r.None? ==> forall j :: from <= j ==> !OccursAt(s, pat, j)
    decreases |s| - from
  {
    if from + |pat| > |s| then None
    else if s[from..from + |pat|] == pat then Some(from)
    else SearchFrom(s, pat, from + 1)
  }

  /** The empty pattern occurs at the clamped start: `"abc".indexOf("", 5)`
      is 3. */
  lemma EmptyPatternAtClampedStart(s: string, from: nat)
    ensures IndexOf(s, "", from) == Some(if from < |s| then from else |s|)
  {
  }

  /** String.prototype.replace with a string pattern: only the FIRST
      occurrence of `pat` is replaced by `rep`. `rep` is inserted literally,
      which is JavaScript's behaviour only when `rep` holds no `$`
      substitution pattern (`$&`, `$$`, `` $` ``, `$'`). */
  function ReplaceFirst(s: string, pat: string, rep: string): (r: string)
    ensures !Contains(s, pat) ==> r == s
    ensures Contains(s, pat) ==> exists i ::
      && OccursAt(s, pat, i)
      && (forall j :: 0 <= j < i ==> !OccursAt(s, pat, j))
      && r == s[..i] + rep + s[i + |pat|..]
  {
    match IndexOf(s, pat, 0)
    case None => s
    case Some(i) => s[..i] + rep + s[i + |pat|..]
  }

  /** The last element of a non-empty sequence. */
  function Last<T>(xs: seq<T>): T
    requires xs != []
  {
    xs[|xs| - 1]
  }

  /** Array.prototype.join(sep) for a one-character separator. */
  function Join(parts: seq<string>, sep: char): (r: string)
    ensures sep in r <==> |parts| > 1 || exists k :: 0 <= k < |parts| && sep in parts[k]
  {
    if |parts| == 0 then []
    else if |parts| == 1 then parts[0]
    else parts[0] + [sep] + Join(parts[1..], sep)
  }

  /** A join begins with its first piece. */
  lemma JoinStartsWithFirst(parts: seq<string>, sep: char)
    requires parts != []
    ensures |parts[0]| <= |Join(parts, sep)| && Join(parts, sep)[..|parts[0]|] == parts[0]
  {
    if |parts| > 1 {
      var j := Join(parts, sep);
      assert j == parts[0] + ([sep] + Join(parts[1..], sep));
    }
  }

  /** String.prototype.split(sep) for a one-character separator: the pieces
      never contain `sep` and joining them with `sep` gives back `s`. There
      is always at least one piece (`"".split("/")` is `[""]`). */
  function Split(s: string, sep: char): (r: seq<string>)
    ensures |r| >= 1
    ensures forall k :: 0 <= k < |r| ==> sep !in r[k]
    ensures Join(r, sep) == s
  {
    if s == [] then [[]]
    else
      var rest := Split(s[1..], sep);
      if s[0] == sep then
        assert [sep] + s[1..] == s;
        [[]] + rest
      else
        var r := [[s[0]] + rest[0]] + rest[1..];
        assert r[1..] == rest[1..];
        assert forall k :: 1 <= k < |r| ==> r[k] == rest[k];
        r
  }

  /** A string without the separator is split into itself alone. */
  lemma {:induction false} SplitWithoutSep(s: string, sep: char)
    requires sep !in s
    ensures Split(s, sep) == [s]
  {
    if s != [] {
      assert sep !in s[1..];
      SplitWithoutSep(s[1..], sep);
      assert [s[0]] + s[1..] == s;
    }
  }

  /** Splitting at a separator splits the two sides independently. */
  lemma {:induction false} SplitAtSep(a: string, b: string, sep: char)
    ensures Split(a + [sep] + b, sep) == Split(a, sep) + Split(b, sep)
  {
    if a == [] {
      assert a + [sep] + b == [sep] + b;
      assert ([sep] + b)[1..] == b;
    } else {
      assert (a + [sep] + b)[1..] == a[1..] + [sep] + b;
      assert (a + [sep] + b)[0] == a[0];
      SplitAtSep(a[1..], b, sep);
    }
  }

  /** Splitting undoes joining, whenever no piece holds the separator. */
  lemma {:induction false} SplitJoin(parts: seq<string>, sep: char)
    requires |parts| >= 1
    requires forall k :: 0 <= k < |parts| ==> sep !in parts[k]
    ensures Split(Join(parts, sep), sep) == parts
  {
    if |parts| == 1 {
      SplitWithoutSep(parts[0], sep);
    } else {
      SplitWithoutSep(parts[0], sep);
      SplitJoin(parts[1..], sep);
      SplitAtSep(parts[0], Join(parts[1..], sep), sep);
      assert [parts[0]] + parts[1..] == parts;
    }
  }

  /** Joining one more piece appends the separator and that piece. */
  lemma {:induction false} JoinSnoc(parts: seq<string>, p: string, sep: char)
    requires |parts| >= 1
    ensures Join(parts + [p], sep) == Join(parts, sep) + [sep] + p
  {
    if |parts| == 1 {
      assert (parts + [p])[1..] == [p];
    } else {
      assert (parts + [p])[1..] == parts[1..] + [p];
      JoinSnoc(parts[1..], p, sep);
    }
  }

  /** The last piece of a split is the text after the last separator, or
      the whole string when there is none. */
  lemma SplitLast(s: string, sep: char)
    ensures var last := Split(s, sep)[|Split(s, sep)| - 1];
      && sep !in last
      && (sep !in s ==> last == s)
      && (sep in s ==> |last| < |s| && s == s[..|s| - |last| - 1] + [sep] + last)
  {
    var r := Split(s, sep);
    var last := r[|r| - 1];
    if sep !in s {
      SplitWithoutSep(s, sep);
    } else {
      assert |r| >= 2;
      JoinSnoc(r[..|r| - 1], last, sep);
      assert r[..|r| - 1] + [last] == r;
      var front := Join(r[..|r| - 1], sep);
      assert s == front + [sep] + last;
      assert s[..|s| - |last| - 1] == front;
    }
  }
}

=== FILE: wrappers.dfy ===
/** Optional values, used where the dashboard has "no value" (a disabled
    button, a command that was not sent, a file without a size). */
module Wrappers {

  datatype Option<+T> = None | Some(value: T)

}
